=== FILE: README.md ===
# bau-connect booking core, in Dafny

bau-connect is a campus booking front end. Students (identified by their
NIM) ask to borrow a room (*ruangan*) or an item (*barang*), and
administrators from the general affairs office (BAU) move each request
(*peminjaman*) through `pending`, `review`, `accepted` and `rejected`. This
project models the logic of that front end as pure functions over immutable
datatypes:

- `PeminjamanStore` (`peminjaman.dfy`) models the booking store. It is an
  ordered sequence of records that grows only by appending and whose records
  change only in their status. It also holds the requester and
  "pending-or-review" views.
- `AdminPanel` (`admin.dfy`) models the administrator's panel:
  - the three tabs;
  - which buttons a booking offers in each status, and so the panel's status
    state machine;
  - what pressing a button does to the store, and the toast title it shows.
- `DashboardPage` (`dashboard.dfy`) models the user's bookings, the pending
  and review counters, and the newest-first list of the last five bookings.
- `BarangPage` (`barang.dfy`) and `RuanganPage` (`ruangan.dfy`) model the
  two catalog pages:
  - the category and size filters, and the distinct category list;
  - the guard that opens the booking form;
  - the quantity field's `parseInt(...) || 1` fallback;
  - the booking submitted by the form, and the form reset;
  - the two colour tables.
- `Auth` (`auth.dfy`) models login by NIM (the password is the NIM), logout,
  and the derived `isAuthenticated` and `isAdmin`.
- `StatusBadge` (`statusbadge.dfy`) models the eight-status label and emoji
  table, and what the badge shows.
- `ChatPage` (`chat.dfy`) models the keyword responder and the send handler.
  The handler trims the input before storing it, but answers the untrimmed
  input.
- Shared modules:
  - `Options` (`options.dfy`) is the optional-value type.
  - `Seqs` (`seqs.dfy`) holds JavaScript's `filter`, `find`, `slice(-k)`,
    `reverse` and `[...new Set(xs)]`.
  - `Text` (`text.dfy`) holds ASCII `toLowerCase`, `includes`, `trim` over
    the ECMAScript whitespace set, `String(n)` for clock readings, and
    `parseInt` with no radix.

Clock readings (`Date.now()`) and timestamps (`new Date().toISOString()`)
are parameters. The static catalogs (students, rooms, items) are inputs.
"Saving" the store means returning its new value.

## Model

| member | source | states |
|---|---|---|
| PeminjamanStore.BookingId | src/context/PeminjamanContext.tsx:52 | The id is `PJ` followed only by decimal digits with no leading zero (a leading `0` means the id is `PJ0`), and `parseInt` of the part after `PJ` gives the clock reading back. Together these make it `PJ` + `String(Date.now())`. |
| PeminjamanStore.AddPeminjaman | src/context/PeminjamanContext.tsx:49-57 | The store grows by one and its old prefix is unchanged. The new record is `pending`, carries every draft field unchanged, and gets only `id` and `createdAt` from the store. |
| PeminjamanStore.UpdateStatus | src/context/PeminjamanContext.tsx:60-65 | Length and order are preserved. Every record with the id takes the new status, whatever status it had before. All other fields, and all other records, stay as they were. |
| PeminjamanStore.UpdateStatusIdempotent | src/context/PeminjamanContext.tsx:61-63 | Applying the same (id, status) update twice equals applying it once. |
| PeminjamanStore.UpdateStatusUnknownId | src/context/PeminjamanContext.tsx:60-65 | An id that no record carries leaves the store unchanged, and no error is signalled. |
| PeminjamanStore.UpdateStatusReopensAccepted | src/context/PeminjamanContext.tsx:60-63 | No transition is refused: an accepted booking can be sent back to pending. |
| PeminjamanStore.GetPeminjamanByNim | src/context/PeminjamanContext.tsx:67-69 | A booking is in the result exactly when it is in the store under that NIM. |
| PeminjamanStore.GetPendingPeminjaman | src/context/PeminjamanContext.tsx:71-73 | A booking is in the result exactly when it is in the store with status `pending` or `review`. |
| PeminjamanStore.WithStatus | src/pages/Dashboard.tsx:16-17 | A booking is in the result exactly when it is in the store with the given status. |
| PeminjamanStore.AddThenByNim | src/context/PeminjamanContext.tsx:49-69 | Appending a booking extends its requester's list by exactly that booking, at the end, and leaves every other requester's list as it was. |
| AdminPanel.PendingItems | src/pages/AdminPanel.tsx:29 | Exactly the pending bookings. |
| AdminPanel.ReviewItems | src/pages/AdminPanel.tsx:30 | Exactly the bookings in review. |
| AdminPanel.CompletedItems | src/pages/AdminPanel.tsx:31 | Exactly the accepted and rejected bookings. |
| AdminPanel.TabsPartition | src/pages/AdminPanel.tsx:29-31 | Every booking is in some tab, no booking is in two tabs, and the three tab lengths add up to the size of the store. |
| AdminPanel.OpenBookingsAreFirstTwoTabs | src/pages/AdminPanel.tsx:29-30 | `getPendingPeminjaman` returns exactly the bookings of the pending and review tabs, and its length is the sum of theirs. |
| AdminPanel.CardActions | src/pages/AdminPanel.tsx:79-109 | Every button on a card moves the booking to a different status. A card has no buttons exactly when the booking is accepted or rejected. |
| AdminPanel.DialogActions | src/pages/AdminPanel.tsx:305-324 | Every button in the detail dialog moves the booking to a different status. The dialog has no buttons exactly when the booking is accepted or rejected. |
| AdminPanel.ReviewOnlyWhenPending | src/pages/AdminPanel.tsx:79-91 | The Review button is offered exactly for pending bookings, and never in the detail dialog. |
| AdminPanel.DecisionButtonsWhileOpen | src/pages/AdminPanel.tsx:92-109 | Accept and reject are offered exactly while the booking is pending or in review, on the card and in the dialog alike. |
| AdminPanel.AdminTransitionsExactly | src/pages/AdminPanel.tsx:79-109 | The status changes the panel can make are exactly pending to review, and pending or review to accepted or rejected. |
| AdminPanel.DecidedIsTerminal | src/pages/AdminPanel.tsx:79-109 | An accepted or rejected booking offers no action and has no outgoing transition. |
| AdminPanel.DialogWithinCard | src/pages/AdminPanel.tsx:305-324 | Every action the detail dialog offers is also offered on the card. |
| AdminPanel.ToastTitle | src/pages/AdminPanel.tsx:36 | The title is the approval message exactly for `accepted` and the rejection message exactly for `rejected`. Every other status gets the generic title. |
| AdminPanel.ApplyAction | src/pages/AdminPanel.tsx:33-40 | A button works only when the panel shows it for the booking's status. Its effect is a transition of the panel's state machine: `updateStatus` on the booking's id, with the matching toast title. |
| AdminPanel.ActionFollowsStateMachine | src/pages/AdminPanel.tsx:33-40 | When ids are unique, a button pressed for a booking changes only that booking, and only along the panel's state machine. |
| AdminPanel.CollidingIdsRewriteDecided | src/context/PeminjamanContext.tsx:52-63 | Two bookings submitted at the same clock reading get the same id. If the first is accepted and the second is then sent to review, the accepted one also goes back to review, a change the panel's state machine does not allow. |
| DashboardPage.UserPeminjaman | src/pages/Dashboard.tsx:15 | With no user the list is empty. Otherwise it holds exactly the store's bookings under the user's NIM. |
| DashboardPage.WithStatusCount | src/pages/Dashboard.tsx:16-17 | The number of bookings with a status equals how often that status occurs in the store. |
| DashboardPage.PendingCount | src/pages/Dashboard.tsx:16 | The counter equals the number of pending bookings in the store. |
| DashboardPage.ReviewCount | src/pages/Dashboard.tsx:17 | The counter equals the number of bookings in review. |
| DashboardPage.Recent | src/pages/Dashboard.tsx:157 | The list has length min(5, n) and holds the last bookings, newest first. |
| DashboardPage.SubmittedBookingHeadsRecent | src/pages/Dashboard.tsx:147-157 | A booking the logged-in user has just submitted is first in the user's recent list. |
| BarangPage.KategoriList | src/pages/Barang.tsx:52 | The list is `all` followed by every catalog category, each exactly once. |
| BarangPage.KategoriListOrder | src/pages/Barang.tsx:52 | The categories after `all` appear in the order of their first appearance in the catalog. |
| BarangPage.FilteredBarang | src/pages/Barang.tsx:54-56 | `all` shows the whole catalog. Any other value shows exactly the items of that category. |
| BarangPage.FilterShowsCategory | src/pages/Barang.tsx:52-56 | Every category button other than `all` shows at least one item. |
| BarangPage.HandleBarangClick | src/pages/Barang.tsx:58-64 | With a positive count, the item is selected, the quantity reset to 1 and the dialog opened. Otherwise nothing changes. |
| BarangPage.ClickFromInitialPage | src/pages/Barang.tsx:37-64 | On the page as first rendered, a click opens the form exactly for an item in stock. The form it opens is empty, with quantity 1, and the filter is still `all`. |
| BarangPage.BadgeAgreesWithClick | src/pages/Barang.tsx:174 | The card shows "available" exactly for the items whose click opens the form. |
| BarangPage.JumlahFromInput | src/pages/Barang.tsx:205 | The quantity is never 0. Input that does not parse gives 1, input that parses to 0 (`0`, `00`, `-0`, ` 0`) gives 1, and any non-zero parsed value is kept. |
| BarangPage.JumlahNotClamped | src/pages/Barang.tsx:205 | The onChange handler does not clamp: any positive number typed is stored as is, whatever the item's count. Typing 0 stores 1. |
| BarangPage.JumlahNegativeKept | src/pages/Barang.tsx:205 | The onChange handler does not clamp: a negative number typed is stored as is. |
| BarangPage.JumlahEmptyIsOne | src/pages/Barang.tsx:205 | An empty field stores 1. |
| BarangPage.OnJumlahChange | src/pages/Barang.tsx:205 | Only the quantity changes, to the parsed value with its fallback. |
| BarangPage.HandleSubmit | src/pages/Barang.tsx:66-100 | Without a selected item or a user, nothing happens. Otherwise one `pending` item booking is appended: `itemId` and `itemNama` come from the item, `nim` from the user, and the quantity and text fields from the form. Its id is `BookingId` of the clock reading and its `createdAt` is the given timestamp. The dialog closes and the form resets to empty fields with quantity 1. |
| BarangPage.KategoriColor | src/pages/Barang.tsx:24-29 | The four known categories get their own class, and every other category gets the muted default. |
| BarangPage.KategoriColorsDistinct | src/pages/Barang.tsx:24-29 | The known categories' classes are pairwise different and none is the default. |
| RuanganPage.FilteredRuangan | src/pages/Ruangan.tsx:54-56 | `all` shows every room. Any other value shows exactly the rooms of that size. |
| RuanganPage.FilterBySizeIdempotent | src/pages/Ruangan.tsx:54-56 | Filtering the filtered list by the same size again changes nothing. |
| RuanganPage.HandleRuanganClick | src/pages/Ruangan.tsx:58-63 | An available room is selected and the dialog opened, and the form keeps its contents. Otherwise nothing changes. |
| RuanganPage.ClickFromInitialPage | src/pages/Ruangan.tsx:40-63 | On the page as first rendered, a click opens the form exactly for an available room. The form it opens is empty, and the filter is still `all`. |
| RuanganPage.BadgeAgreesWithClick | src/pages/Ruangan.tsx:166 | The card shows "available" exactly for the rooms whose click opens the form. |
| RuanganPage.HandleSubmit | src/pages/Ruangan.tsx:65-93 | Without a selected room or a user, nothing happens. Otherwise one `pending` room booking is appended, with the form fields copied unchanged and no quantity. Its id is `BookingId` of the clock reading and its `createdAt` is the given timestamp. The dialog closes and every field is emptied. |
| RuanganPage.UkuranColor | src/pages/Ruangan.tsx:95-106 | `Kecil`, `Menengah` and `Besar` get their classes, and every other size gets the default. |
| RuanganPage.UkuranColorsDistinct | src/pages/Ruangan.tsx:95-106 | The three sizes' classes are pairwise different and none is the default. |
| Auth.ToUser | src/context/AuthContext.tsx:39-45 | The user copies the entry's fields. `isAdmin` holds exactly when the entry's flag is present and true. |
| Auth.Login | src/context/AuthContext.tsx:32-51 | Login succeeds exactly when some entry has the NIM and the password equals the NIM. The user is then built from the first such entry. A failed login leaves the session as it was. |
| Auth.Logout | src/context/AuthContext.tsx:53-56 | Afterwards the session is neither authenticated nor an administrator's. |
| Auth.IsAuthenticated | src/context/AuthContext.tsx:64 | `!!user`: a session is authenticated exactly when a user is set. |
| Auth.IsAdmin | src/context/AuthContext.tsx:65 | The user's admin flag, defaulting to false: with no user it is false, and it holds only for an authenticated session. |
| Auth.AdminIsAuthenticated | src/context/AuthContext.tsx:64-65 | `isAdmin` implies `isAuthenticated`. |
| Auth.LoginEstablishesSession | src/context/AuthContext.tsx:32-65 | After a successful login the session is authenticated under the entered NIM. It is an administrator's exactly when the first matching entry says so. |
| StatusBadge.StatusConfig | src/components/StatusBadge.tsx:11-52 | The table is total over the eight statuses and every label is non-empty. `EmojiExactlyForLifecycle` and `LabelsIdentifyStatus` state which statuses have an emoji and that labels are unique. |
| StatusBadge.FromBooking | src/components/StatusBadge.tsx:4 | Each booking status shows the badge of the same name: pending as Pending, review as Review, accepted as Accepted, rejected as Rejected. No booking shows one of the four other badges. |
| StatusBadge.Render | src/components/StatusBadge.tsx:54-68 | The badge ends with the label, and every piece before it is an emoji span. It shows exactly one emoji span, first and holding the configured emoji, when that emoji is non-empty, and only the label otherwise. |
| StatusBadge.EmojiExactlyForLifecycle | src/components/StatusBadge.tsx:11-52 | Only `available` and `unavailable` have no emoji. |
| StatusBadge.LabelsIdentifyStatus | src/components/StatusBadge.tsx:11-52 | No two statuses share a label. |
| StatusBadge.EveryBookingRenders | src/components/StatusBadge.tsx:55-66 | Different booking statuses get different badges, and each shows an emoji followed by its label. |
| ChatPage.GetResponse | src/pages/Chat.tsx:28-38 | The reply is the first key in table order that occurs in the lower-cased message. When no key occurs, the reply is the default. |
| ChatPage.ResponseIgnoresCase | src/pages/Chat.tsx:29 | Lower-casing the message first does not change the reply. |
| ChatPage.GreetingWinsOverLaterKeys | src/pages/Chat.tsx:16-35 | A message containing `hi` but not `halo` gets the `hi` greeting, whatever later keys it also contains. |
| ChatPage.StatusQuestionWithGreeting | src/pages/Chat.tsx:16-35 | "Cek status, hi" is answered with the greeting, not the status help. |
| ChatPage.KeysAreWords | src/pages/Chat.tsx:16-26 | No key is empty and no key contains whitespace. |
| ChatPage.ReplyIgnoresTrim | src/pages/Chat.tsx:64-80 | Answering the untrimmed input gives the same reply as answering the trimmed message that is stored. |
| ChatPage.HandleSend | src/pages/Chat.tsx:63-90 | Input that is blank after trimming changes nothing. Otherwise the trimmed text and the reply are appended after the old messages, and the input is cleared. |
| ChatPage.BlankInputIgnored | src/pages/Chat.tsx:64 | Whitespace-only input never produces a message. |
| Text.ToLower | src/pages/Chat.tsx:29 | Length is kept. ASCII capitals become their lower-case letters, every other character is kept, and no capital is left. |
| Text.ToLowerIdempotent | src/pages/Chat.tsx:29 | Lower-casing twice is lower-casing once. |
| Text.Trim | src/pages/Chat.tsx:64-69 | The result is the block of the input between the leading and trailing whitespace, and it does not start or end with whitespace. It is empty exactly when the input is all whitespace. |
| Text.TrimIdempotent | src/pages/Chat.tsx:69 | Trimming twice is trimming once. |
| Text.DecimalString | src/context/PeminjamanContext.tsx:52 | The text is a non-empty run of decimal digits with no leading zero (except `0` itself). |
| Text.DecimalRoundTrip | src/context/PeminjamanContext.tsx:52 | Reading the decimal digits of `n` back gives `n`. |
| Text.ParseInt | src/pages/Barang.tsx:205 | Input that is empty or all whitespace parses to NaN (None). The lemmas below state what it reads otherwise. |
| Text.ParseIntOfDecimal | src/pages/Barang.tsx:205 | `parseInt(String(n))` is `n`. |
| Text.ParseIntOfNegativeDecimal | src/pages/Barang.tsx:205 | `parseInt("-" + String(n))` is `-n`. |
| Text.ParseIntSkipsWhitespace | src/pages/Barang.tsx:205 | Leading whitespace does not change what `parseInt` reads. |
| Text.ParseMagnitudeDecimal | src/pages/Barang.tsx:205 | Reading stops at the first character that is not a digit, so trailing text after a number is ignored. |
| Text.ParseSignedMinus | src/pages/Barang.tsx:205 | A leading `-` negates the value read after it. |
| Text.ParseSignedSigns | src/pages/Barang.tsx:205 | A `+` sign reads the number after it unchanged. A `-` or `+` followed by no number is NaN. |
| Text.ParseIntNoNumber | src/pages/Barang.tsx:205 | When the first character after the leading whitespace is neither a sign nor a decimal digit (`.5`, `abc`), or there is none, the result is NaN. |
| Text.ParseMagnitudeHex | src/pages/Barang.tsx:205 | A `0x` or `0X` prefix switches the digit run after it to base 16. |
| Text.ParseIntHexExamples | src/pages/Barang.tsx:205 | `0x1A` reads as 26; `0X` alone and `0xg` are NaN; `0` reads as 0. |
| Seqs.Filter | src/context/PeminjamanContext.tsx:68 | The result is no longer than the input. An element is in the result exactly when it is in the input and passes the test. |
| Seqs.FilterConcat | src/context/PeminjamanContext.tsx:68 | Filtering distributes over concatenation, so the result keeps the input's order. |
| Seqs.FilterMultiset | src/pages/Dashboard.tsx:16-17 | Each passing element occurs in the result as often as in the input, and each failing element never occurs. |
| Seqs.FindIndex | src/context/AuthContext.tsx:34-36 | None exactly when no element passes. Otherwise the index is that of the first element that passes. |
| Seqs.SliceFrom | src/pages/Dashboard.tsx:157 | `slice(-k)` has length min(k, n) and is the suffix of that length. |
| Seqs.Reverse | src/pages/Dashboard.tsx:157 | Length is kept, and element `i` is the input's element `n - 1 - i`. |
| Seqs.Distinct | src/pages/Barang.tsx:52 | The result has the same elements as the input, with no duplicates. |
| Seqs.DistinctOrder | src/pages/Barang.tsx:52 | The elements of the result appear in the order of their first appearance in the input. |

## Left out

- Persistence to `localStorage`, and JSON parsing and serialising, are left out. The store and the session are plain values.
- Clock readings and timestamps are parameters. The model does not reason about id uniqueness. `CollidingIdsRewriteDecided` shows what happens when two ids collide.
- React rendering, routing and redirects are left out, including the non-administrator redirect of the admin panel. The admin panel's detail-dialog state (the selected booking and whether the dialog is open) is not modelled: the dialog is represented only by the buttons it offers for a status. Toasts are left out, except the admin panel's title choice; style classes are left out too, except for the size and category colour tables and the badge's emoji and label.
- The browser's form validation from `required`, `min` and `max`, which keeps `handleSubmit` from running on an invalid form, is not modelled. `HandleSubmit` and the quantity handler are the handlers alone, so a quantity outside 1 to `tersedia` reaches the store only if that validation is bypassed.
- Image upload (FileReader and data URLs) is foreign I/O. The photo field is whatever string the form holds.
- The chat's typing delay, typing indicator, scrolling and greeting message are timing or rendering. The reply is identified by its table key, not by its text.
- The setters of the form's text fields are left out. They overwrite one field with the typed text. So are the category and size filter buttons (`setFilterKategori`, `setFilterUkuran`), which only set the filter value that `FilteredBarang` and `FilteredRuangan` take as a parameter, and closing a form dialog with "Batal" or `onOpenChange`, which only sets the dialog flag to false.
- src/pages/Login.tsx is not part of this model. It forwards to `login` and shows an error text.
- The student, room and item catalogs are inputs. `tersedia` is the catalog's static value.
- Text.ToLower: only ASCII letters are lower-cased. Full Unicode case mapping is not modelled.
- Text.ParseInt: values are unbounded integers. The floating-point rounding of very long digit runs is not modelled.
- The object lookups `kategoriColors[k]` and `predefinedResponses` are modelled as plain maps and tables. Inherited object properties (`constructor`, `toString`) are not modelled.
- The code has no real-time availability, queue counts, wait estimates, expiry to `completed`, cancellation, administrator blocking or room recommendation, so none is modelled. A room's or item's availability is the catalog's static `tersedia` value. The booking status has only the four values `pending`, `review`, `accepted` and `rejected`; `cancelled` and `completed` exist only as badge styles.

=== FILE: admin.dfy ===
/** The administrator's view of src/pages/AdminPanel.tsx: three tabs over
    the booking store, the actions each booking's card and detail dialog
    offer, and what an action does to the store. The redirect of
    non-administrators, toasts' descriptions and all rendering are left out. */
module AdminPanel {
  import opened Options
  import opened Seqs
  import opened PeminjamanStore

  /** A booking on which a decision was taken. */
  predicate IsDecided(p: Peminjaman) {
    p.status == Accepted || p.status == Rejected
  }

  /** `pendingItems`. */
  function PendingItems(store: seq<Peminjaman>): (r: seq<Peminjaman>)
    ensures forall p :: p in r <==> p in store && p.status == Pending
  {
    WithStatus(store, Pending)
  }

  /** `reviewItems`. */
  function ReviewItems(store: seq<Peminjaman>): (r: seq<Peminjaman>)
    ensures forall p :: p in r <==> p in store && p.status == Review
  {
    WithStatus(store, Review)
  }

  /** `completedItems`: the accepted and the rejected bookings, in store
      order. */
  function CompletedItems(store: seq<Peminjaman>): (r: seq<Peminjaman>)
    ensures forall p :: p in r <==> p in store && (p.status == Accepted || p.status == Rejected)
  {
    Filter(store, IsDecided)
  }

  /** Every booking appears in exactly one tab, so the tab counts add up to
      the size of the store. */
  lemma {:induction false} TabsPartition(store: seq<Peminjaman>)
    ensures forall p :: p in store ==>
      (p in PendingItems(store) || p in ReviewItems(store) || p in CompletedItems(store))
    ensures forall p :: !(p in PendingItems(store) && p in ReviewItems(store))
    ensures forall p :: !(p in PendingItems(store) && p in CompletedItems(store))
    ensures forall p :: !(p in ReviewItems(store) && p in CompletedItems(store))
    ensures |PendingItems(store)| + |ReviewItems(store)| + |CompletedItems(store)| == |store|
  {
    if |store| > 0 {
      TabsPartition(store[1..]);
    }
  }

  /** The bookings `getPendingPeminjaman` returns are exactly those of the
      pending and review tabs. */
  lemma {:induction false} OpenBookingsAreFirstTwoTabs(store: seq<Peminjaman>)
    ensures forall p :: p in GetPendingPeminjaman(store) <==> p in PendingItems(store) || p in ReviewItems(store)
    ensures |GetPendingPeminjaman(store)| == |PendingItems(store)| + |ReviewItems(store)|
  {
    if |store| > 0 {
      OpenBookingsAreFirstTwoTabs(store[1..]);
    }
  }

  /** The buttons the panel can show for a booking. */
  datatype Action = MarkReview | Accept | Reject

  /** The status each button passes to `handleUpdateStatus`. */
  function Target(a: Action): StatusPeminjaman {
    match a
    case MarkReview => Review
    case Accept => Accepted
    case Reject => Rejected
  }

  /** The buttons on a booking's card: Review only while pending, accept and
      reject while pending or in review, nothing once decided. */
  function CardActions(status: StatusPeminjaman): (r: seq<Action>)
    ensures forall a :: a in r ==> Target(a) != status
    ensures r == [] <==> status == Accepted || status == Rejected
  {
    match status
    case Pending => [MarkReview, Accept, Reject]
    case Review => [Accept, Reject]
    case _ => []
  }

  /** The buttons in the detail dialog: reject and accept while pending or in
      review. */
  function DialogActions(status: StatusPeminjaman): (r: seq<Action>)
    ensures forall a :: a in r ==> Target(a) != status
    ensures r == [] <==> status == Accepted || status == Rejected
  {
    match status
    case Pending | Review => [Reject, Accept]
    case _ => []
  }

  predicate Offered(status: StatusPeminjaman, a: Action) {
    a in CardActions(status) || a in DialogActions(status)
  }

  /** The Review button appears only on the card of a pending booking. */
  lemma ReviewOnlyWhenPending(status: StatusPeminjaman)
    ensures Offered(status, MarkReview) <==> status == Pending
    ensures MarkReview !in DialogActions(status)
  {
  }

  /** Accept and reject appear, on the card and in the dialog alike,
      exactly while the booking is pending or in review. */
  lemma DecisionButtonsWhileOpen(status: StatusPeminjaman, a: Action)
    requires a == Accept || a == Reject
    ensures a in CardActions(status) <==> status == Pending || status == Review
    ensures a in DialogActions(status) <==> status == Pending || status == Review
  {
  }

  /** A status change an administrator can make through the panel. */
  ghost predicate AdminTransition(from: StatusPeminjaman, to: StatusPeminjaman) {
    exists a :: Offered(from, a) && Target(a) == to
  }

  /** The panel's state machine is exactly pending -> review, and pending or
      review -> accepted or rejected. */
  lemma AdminTransitionsExactly(from: StatusPeminjaman, to: StatusPeminjaman)
    ensures AdminTransition(from, to) <==>
      || (from == Pending && (to == Review || to == Accepted || to == Rejected))
      || (from == Review && (to == Accepted || to == Rejected))
  {
    if from == Pending && to == Review {
      assert Offered(from, MarkReview);
    } else if (from == Pending || from == Review) && to == Accepted {
      assert Offered(from, Accept);
    } else if (from == Pending || from == Review) && to == Rejected {
      assert Offered(from, Reject);
    }
  }

  /** A decided booking offers no action, on its card or in the dialog. */
  lemma DecidedIsTerminal(status: StatusPeminjaman, a: Action)
    requires status == Accepted || status == Rejected
    ensures !Offered(status, a)
    ensures forall to :: !AdminTransition(status, to)
  {
  }

  /** The dialog never offers an action that the card does not. */
  lemma DialogWithinCard(status: StatusPeminjaman, a: Action)
    ensures a in DialogActions(status) ==> a in CardActions(status)
  {
  }

  /** The toast title chosen in `handleUpdateStatus`. */
  function ToastTitle(status: StatusPeminjaman): (t: string)
    ensures t == "Peminjaman Disetujui ✅" <==> status == Accepted
    ensures t == "Peminjaman Ditolak ❌" <==> status == Rejected
    ensures status != Accepted && status != Rejected ==> t == "Status Diperbarui"
  {
    if status == Accepted then "Peminjaman Disetujui ✅"
    else if status == Rejected then "Peminjaman Ditolak ❌"
    else "Status Diperbarui"
  }

  datatype AdminUpdate = AdminUpdate(store: seq<Peminjaman>, toastTitle: string)

  /** Pressing button `a` for booking `item`: None when the panel does not
      show that button for the booking's status; otherwise the store after
      `updateStatus(item.id, target)` and the toast title. */
  function ApplyAction(store: seq<Peminjaman>, item: Peminjaman, a: Action): (r: Option<AdminUpdate>)
    ensures r.Some? <==> Offered(item.status, a)
    ensures r.Some? ==> AdminTransition(item.status, Target(a))
    ensures r.Some? ==> r.value.store == UpdateStatus(store, item.id, Target(a))
    ensures r.Some? ==> r.value.toastTitle == ToastTitle(Target(a))
  {
    if Offered(item.status, a) then Some(AdminUpdate(UpdateStatus(store, item.id, Target(a)), ToastTitle(Target(a))))
    else None
  }

  predicate UniqueIds(store: seq<Peminjaman>) {
    forall i, j :: 0 <= i < j < |store| ==> store[i].id != store[j].id
  }

  /** While booking ids are unique, an action pressed for a booking of the
      store changes only that booking, and only along the panel's state
      machine. */
  lemma ActionFollowsStateMachine(store: seq<Peminjaman>, item: Peminjaman, a: Action)
    requires UniqueIds(store) && item in store
    requires ApplyAction(store, item, a).Some?
    ensures var s' := ApplyAction(store, item, a).value.store;
      forall i :: 0 <= i < |store| ==>
        s'[i] == store[i] || (store[i] == item && AdminTransition(store[i].status, s'[i].status))
  {
  }

  /** Ids are `PJ` plus the clock reading, so two bookings submitted at the
      same clock reading share one. When the first of them is accepted and
      the second is then sent to review, the accepted one is moved back to
      review too, a change the panel never offers. */
  lemma CollidingIdsRewriteDecided(store: seq<Peminjaman>, d1: Draft, d2: Draft, clock: nat, t1: string, t2: string)
    ensures
      var s1 := AddPeminjaman(store, d1, clock, t1);
      var accepted := UpdateStatus(s1, s1[|store|].id, Accepted);
      var s2 := AddPeminjaman(accepted, d2, clock, t2);
      var item := s2[|store| + 1];
      && s2[|store|].id == item.id
      && s2[|store|].status == Accepted && item.status == Pending
      && ApplyAction(s2, item, MarkReview).Some?
      && ApplyAction(s2, item, MarkReview).value.store[|store|].status == Review
      && !AdminTransition(Accepted, Review)
  {
    var s1 := AddPeminjaman(store, d1, clock, t1);
    var accepted := UpdateStatus(s1, s1[|store|].id, Accepted);
    var s2 := AddPeminjaman(accepted, d2, clock, t2);
    assert s2[..|accepted|] == accepted;
    assert s2[|store|] == accepted[|store|];
    assert accepted[|store|].(status := s1[|store|].status) == s1[|store|];
    AdminTransitionsExactly(Accepted, Review);
  }
}

=== FILE: auth.dfy ===
/** Credential check and session state of src/context/AuthContext.tsx.
    The student catalog (`mahasiswa.json`) is an input; storing the user in
    `localStorage` is left out. */
module Auth {
  import opened Options
  import opened Seqs

  /** A catalog entry; `isAdmin` may be absent from the JSON. */
  datatype Mahasiswa = Mahasiswa(nim: string, nama: string, jurusan: string, semester: int, isAdmin: Option<bool>)

  /** The logged-in user. */
  datatype User = User(nim: string, nama: string, jurusan: string, semester: int, isAdmin: bool)

  /** The test `find` applies: the NIM matches and the password equals it. */
  predicate Matches(m: Mahasiswa, nim: string, password: string) {
    m.nim == nim && nim == password
  }

  /** `flag || false` for a flag that may be absent: only a present `true`
      is truthy. */
  function OrFalse(flag: Option<bool>): bool {
    match flag
    case Some(b) => b
    case None => false
  }

  /** The user built from a catalog entry; `isAdmin || false` makes an absent
      or false flag false. */
  function ToUser(m: Mahasiswa): (u: User)
    ensures u.nim == m.nim && u.nama == m.nama && u.jurusan == m.jurusan && u.semester == m.semester
    ensures u.isAdmin <==> m.isAdmin == Some(true)
  {
    User(m.nim, m.nama, m.jurusan, m.semester, OrFalse(m.isAdmin))
  }

  /** Entry `i` is the first catalog entry carrying `nim`. */
  predicate IsFirstEntryFor(catalog: seq<Mahasiswa>, nim: string, i: int) {
    && 0 <= i < |catalog| && catalog[i].nim == nim
    && forall j :: 0 <= j < i ==> catalog[j].nim != nim
  }

  datatype LoginResult = LoginResult(success: bool, user: Option<User>)

  /** `login(nim, password)` from session state `current`. It succeeds exactly
      when some catalog entry has that NIM and the password is the NIM; the
      user is then built from the first such entry. A failed login leaves the
      session as it was. */
  function Login(current: Option<User>, catalog: seq<Mahasiswa>, nim: string, password: string): (r: LoginResult)
    ensures r.success <==> password == nim && exists i :: 0 <= i < |catalog| && catalog[i].nim == nim
    ensures !r.success ==> r.user == current
    ensures r.success ==> exists i :: IsFirstEntryFor(catalog, nim, i) && r.user == Some(ToUser(catalog[i]))
  {
    match FindIndex(catalog, m => Matches(m, nim, password))
    case None => LoginResult(false, current)
    case Some(i) => LoginResult(true, Some(ToUser(catalog[i])))
  }

  /** `logout`: no user afterwards. */
  function Logout(): (r: Option<User>)
    ensures !IsAuthenticated(r) && !IsAdmin(r)
  {
    None
  }

  /** `isAuthenticated`: `!!user`. */
  predicate IsAuthenticated(user: Option<User>) {
    user.Some?
  }

  /** `isAdmin`: `user?.isAdmin || false`. */
  predicate IsAdmin(user: Option<User>)
    ensures IsAdmin(user) ==> IsAuthenticated(user)
    ensures user.None? ==> !IsAdmin(user)
  {
    user.Some? && user.value.isAdmin
  }

  /** Only an authenticated session can be an administrator's. */
  lemma AdminIsAuthenticated(user: Option<User>)
    ensures IsAdmin(user) ==> IsAuthenticated(user)
  {
  }

  /** After a successful login the session is authenticated under the
      entered NIM, and is an administrator's exactly when the first matching
      catalog entry says so. */
  lemma LoginEstablishesSession(current: Option<User>, catalog: seq<Mahasiswa>, nim: string, password: string)
    requires Login(current, catalog, nim, password).success
    ensures var u := Login(current, catalog, nim, password).user;
      IsAuthenticated(u) && u.value.nim == nim
      && exists i :: IsFirstEntryFor(catalog, nim, i) && (IsAdmin(u) <==> catalog[i].isAdmin == Some(true))
  {
  }
}

=== FILE: barang.dfy ===
/** The item catalog page, src/pages/Barang.tsx: category filter, the guard
    for opening the booking form, the quantity input and the submission.
    The catalog (`barang.json`) is an input; `tersedia` is its static
    per-item count. Image encoding, toasts and navigation are left out. */
module BarangPage {
  import opened Options
  import opened Seqs
  import Text
  import opened PeminjamanStore
  import opened Auth
  import StatusBadge

  datatype Barang = Barang(id: string, nama: string, jumlah: int, tersedia: int, kategori: string)

  datatype BarangForm = BarangForm(fields: FormFields, jumlah: int)

  const EmptyForm := BarangForm(EmptyFields, 1)

  /** The page's state: selected item, whether the form dialog is open, the
      category filter and the form. */
  datatype Page = Page(selected: Option<Barang>, dialogOpen: bool, filterKategori: string, form: BarangForm)

  /** The filter value that shows every category. */
  const All := "all"

  /** The page as first rendered: nothing selected, the dialog closed, every
      category shown and an empty form with quantity 1. */
  const InitialPage := Page(None, false, All, EmptyForm)

  /** The category column of the catalog. */
  function Kategoris(catalog: seq<Barang>): (r: seq<string>)
    ensures |r| == |catalog|
    ensures forall i :: 0 <= i < |r| ==> r[i] == catalog[i].kategori
  {
    seq(|catalog|, i requires 0 <= i < |catalog| => catalog[i].kategori)
  }

  /** `kategoriList`: `all`, then every category of the catalog exactly
      once. */
  function KategoriList(catalog: seq<Barang>): (r: seq<string>)
    ensures |r| >= 1 && r[0] == All
    ensures forall k :: k in r[1..] <==> exists i :: 0 <= i < |catalog| && catalog[i].kategori == k
    ensures NoDuplicates(r[1..])
  {
    var ks := Kategoris(catalog);
    assert forall k :: k in ks <==> exists i :: 0 <= i < |catalog| && catalog[i].kategori == k by {
      forall k | k in ks ensures exists i :: 0 <= i < |catalog| && catalog[i].kategori == k {
        var i :| 0 <= i < |ks| && ks[i] == k;
      }
    }
    var r := [All] + Distinct(ks);
    assert r[1..] == Distinct(ks);
    r
  }

  /** The categories after `all` come in the order of their first
      appearance in the catalog. */
  lemma KategoriListOrder(catalog: seq<Barang>)
    ensures var ks := Kategoris(catalog);
      var r := KategoriList(catalog);
      forall i, j :: 1 <= i < j < |r| ==> r[i] in ks && r[j] in ks && FirstIndex(ks, r[i]) < FirstIndex(ks, r[j])
  {
    var ks := Kategoris(catalog);
    var r := KategoriList(catalog);
    DistinctOrder(ks);
    assert r[1..] == Distinct(ks);
    forall i, j | 1 <= i < j < |r|
      ensures r[i] in ks && r[j] in ks && FirstIndex(ks, r[i]) < FirstIndex(ks, r[j])
    {
      assert r[i] == Distinct(ks)[i - 1] && r[j] == Distinct(ks)[j - 1];
    }
  }

  predicate InKategori(b: Barang, kategori: string) {
    b.kategori == kategori
  }

  /** `filteredBarang`: the whole catalog for `all`, otherwise the items of
      that category in catalog order. */
  function FilteredBarang(catalog: seq<Barang>, filter: string): (r: seq<Barang>)
    ensures filter == All ==> r == catalog
    ensures filter != All ==> forall b :: b in r <==> b in catalog && b.kategori == filter
  {
    if filter == All then catalog else Filter(catalog, b => InKategori(b, filter))
  }

  /** Every category button other than `all` shows at least one item. */
  lemma FilterShowsCategory(catalog: seq<Barang>, k: string)
    requires k in KategoriList(catalog)[1..] && k != All
    ensures |FilteredBarang(catalog, k)| > 0
  {
  }

  /** `kategoriColors`: the badge classes of the four known categories. */
  const KategoriColors: map<string, string> := map[
    "Elektronik" := "bg-primary/10 text-primary",
    "Audio" := "bg-info/10 text-info",
    "Aksesoris" := "bg-warning/10 text-warning",
    "Peralatan" := "bg-success/10 text-success"]

  const DefaultColor := "bg-muted text-muted-foreground"

  /** `kategoriColors[kategori] || 'bg-muted text-muted-foreground'`. */
  function KategoriColor(kategori: string): (c: string)
    ensures kategori in KategoriColors ==> c == KategoriColors[kategori]
    ensures kategori !in KategoriColors ==> c == DefaultColor
  {
    if kategori in KategoriColors then KategoriColors[kategori] else DefaultColor
  }

  /** Each known category has its own class, none of them the default, so
      the class tells the known categories apart from the rest. */
  lemma KategoriColorsDistinct(a: string, b: string)
    requires a in KategoriColors
    ensures KategoriColor(a) != DefaultColor
    ensures b in KategoriColors && KategoriColor(a) == KategoriColor(b) ==> a == b
  {
  }

  /** An item can be opened for booking only while its count is positive. */
  predicate CanOpen(b: Barang) {
    b.tersedia > 0
  }

  /** The badge on an item's card. */
  function CardBadge(b: Barang): StatusBadge.Status {
    if b.tersedia > 0 then StatusBadge.Available else StatusBadge.Unavailable
  }

  /** `handleBarangClick`: with a positive count the item is selected, the
      quantity reset to 1 and the dialog opened; otherwise nothing happens. */
  function HandleBarangClick(page: Page, b: Barang): (r: Page)
    ensures CanOpen(b) ==>
      r.selected == Some(b) && r.dialogOpen && r.form == page.form.(jumlah := 1) && r.filterKategori == page.filterKategori
    ensures !CanOpen(b) ==> r == page
  {
    if b.tersedia > 0 then page.(selected := Some(b), form := page.form.(jumlah := 1), dialogOpen := true)
    else page
  }

  /** On the page as first rendered, a click opens the form exactly for an
      item in stock, and the form it opens is empty with quantity 1. */
  lemma ClickFromInitialPage(b: Barang)
    ensures HandleBarangClick(InitialPage, b).dialogOpen <==> b.tersedia > 0
    ensures b.tersedia > 0 ==>
      var r := HandleBarangClick(InitialPage, b);
      r.selected == Some(b) && r.form.fields == EmptyFields && r.form.jumlah == 1 && r.filterKategori == All
  {
  }

  /** The card's badge says "available" exactly for the items a click opens. */
  lemma BadgeAgreesWithClick(page: Page, b: Barang)
    requires !page.dialogOpen
    ensures CardBadge(b) == StatusBadge.Available <==> HandleBarangClick(page, b).dialogOpen
  {
  }

  /** `parseInt(value) || 1`: NaN and 0 both become 1, every other parsed
      value is kept. */
  function JumlahFromInput(text: string): (n: int)
    ensures n != 0
    ensures Text.ParseInt(text).None? ==> n == 1
    ensures Text.ParseInt(text) == Some(0) ==> n == 1
    ensures Text.ParseInt(text).Some? && Text.ParseInt(text).value != 0 ==> n == Text.ParseInt(text).value
  {
    match Text.ParseInt(text)
    case None => 1
    case Some(v) => if v == 0 then 1 else v
  }

  /** The quantity handler does not clamp: whatever positive number is
      typed is stored, whatever the item's count; only 0 falls back to 1. */
  lemma JumlahNotClamped(n: nat)
    ensures JumlahFromInput(Text.DecimalString(n)) == if n == 0 then 1 else n
  {
    Text.ParseIntOfDecimal(n);
  }

  /** A negative quantity is stored as typed. */
  lemma JumlahNegativeKept(n: nat)
    requires n > 0
    ensures JumlahFromInput("-" + Text.DecimalString(n)) == -(n as int)
  {
    Text.ParseIntOfNegativeDecimal(n);
  }

  /** An empty field stores 1. */
  lemma JumlahEmptyIsOne()
    ensures JumlahFromInput("") == 1
  {
  }

  /** `onChange` of the quantity field. */
  function OnJumlahChange(page: Page, text: string): (r: Page)
    ensures r.form.jumlah == JumlahFromInput(text) && r.form.fields == page.form.fields
    ensures r.selected == page.selected && r.dialogOpen == page.dialogOpen && r.filterKategori == page.filterKategori
  {
    page.(form := page.form.(jumlah := JumlahFromInput(text)))
  }

  datatype Submission = Submission(page: Page, store: seq<Peminjaman>)

  /** `handleSubmit`: nothing without a selected item or a user; otherwise the
      item booking is appended to the store as drafted from the form, the
      dialog closes and the form is reset. The clock reading and timestamp
      of the new booking are parameters. */
  function HandleSubmit(page: Page, user: Option<User>, store: seq<Peminjaman>, clock: nat, createdAt: string): (r: Submission)
    ensures page.selected.None? || user.None? ==> r == Submission(page, store)
    ensures page.selected.Some? && user.Some? ==>
      && |r.store| == |store| + 1 && r.store[..|store|] == store
      && r.store[|store|].status == Pending
      && r.store[|store|].tipe == TipePeminjaman.Barang
      && r.store[|store|].itemId == page.selected.value.id
      && r.store[|store|].itemNama == page.selected.value.nama
      && r.store[|store|].nim == user.value.nim
      && r.store[|store|].jumlah == Some(page.form.jumlah)
      && CarriesFields(r.store[|store|], page.form.fields)
      && r.store[|store|].id == BookingId(clock) && r.store[|store|].createdAt == createdAt
    ensures page.selected.Some? && user.Some? ==>
      r.page == page.(dialogOpen := false, form := EmptyForm)
  {
    if page.selected.None? || user.None? then Submission(page, store)
    else
      var b := page.selected.value;
      var f := page.form.fields;
      var d := Draft(user.value.nim, TipePeminjaman.Barang, b.id, b.nama, f.keperluan, f.penanggungJawab, f.alasan,
                     f.durasi, f.tanggalMulai, f.tanggalSelesai, Some(f.fotoKTM), Some(page.form.jumlah));
      var s' := AddPeminjaman(store, d, clock, createdAt);
      assert DraftOf(s'[|store|]) == d;
      Submission(page.(dialogOpen := false, form := EmptyForm), s')
  }
}

=== FILE: chat.dfy ===
/** The keyword responder of src/pages/Chat.tsx and the send handler around
    it. A reply is identified by the table key it belongs to; the reply
    texts themselves, the typing delay and the greeting are left out. */
module ChatPage {
  import opened Options
  import opened Seqs
  import opened Text

  /** The keys of `predefinedResponses`, in the order `Object.entries`
      visits them. */
  const PredefinedKeys: seq<string> := ["halo", "hi", "hai", "ruangan", "barang", "status", "jam", "kontak", "admin"]

  /** The answer: the response stored under a key, or the default text. */
  datatype Reply = Predefined(key: string) | Fallback

  /** Key `i` is the first key, in table order, that occurs in `lower`. */
  predicate FirstKeyAt(lower: string, i: int) {
    && 0 <= i < |PredefinedKeys| && Includes(lower, PredefinedKeys[i])
    && forall j :: 0 <= j < i ==> !Includes(lower, PredefinedKeys[j])
  }

  /** `getResponse`: lower-case the message, then answer with the first key
      that occurs in it, or with the default when none does. */
  function GetResponse(message: string): (r: Reply)
    ensures r.Fallback? <==> forall i :: 0 <= i < |PredefinedKeys| ==> !Includes(ToLower(message), PredefinedKeys[i])
    ensures r.Predefined? ==> exists i :: FirstKeyAt(ToLower(message), i) && r.key == PredefinedKeys[i]
  {
    var lower := ToLower(message);
    match FindIndex(PredefinedKeys, k => Includes(lower, k))
    case None => Fallback
    case Some(i) =>
      assert FirstKeyAt(lower, i);
      Predefined(PredefinedKeys[i])
  }

  /** Matching ignores the case of ASCII letters. */
  lemma ResponseIgnoresCase(message: string)
    ensures GetResponse(ToLower(message)) == GetResponse(message)
  {
    ToLowerIdempotent(message);
  }

  /** Table order decides, not position in the message: a message that
      contains `hi` but not `halo` gets the `hi` greeting, even when it
      also mentions `status` or any later key. */
  lemma GreetingWinsOverLaterKeys(message: string)
    requires Includes(ToLower(message), "hi") && !Includes(ToLower(message), "halo")
    ensures GetResponse(message) == Predefined("hi")
  {
  }

  /** "Cek status, hi" is answered with the greeting. */
  lemma StatusQuestionWithGreeting()
    ensures GetResponse("Cek status, hi") == Predefined("hi")
  {
    var lower := ToLower("Cek status, hi");
    assert lower == "cek status, hi";
    assert OccursAt(lower, "hi", 12);
    assert OccursAt(lower, "status", 4);
    forall i | 0 <= i && i + 4 <= |lower|
      ensures !OccursAt(lower, "halo", i)
    {
      assert lower[i..i + 4][0] == lower[i] != 'h';
    }
    GreetingWinsOverLaterKeys("Cek status, hi");
  }

  /** An occurrence of a word without whitespace can only lie inside the
      trimmed block, so trimming does not change whether a lower-cased
      message contains it. */
  lemma IncludesIgnoresTrim(s: string, t: string, a: int, k: string)
    requires StrippedAt(s, t, a)
    requires |k| > 0 && forall c :: c in k ==> !IsWhitespace(c)
    ensures Includes(ToLower(t), k) <==> Includes(ToLower(s), k)
  {
    LowerOfBlock(s, a, |t|);
    if Includes(ToLower(t), k) {
      BlockOccurrenceLifts(ToLower(s), a, |t|, k);
    }
    if Includes(ToLower(s), k) {
      OccurrenceDescends(s, t, a, k);
    }
  }

  lemma OccurrenceDescends(s: string, t: string, a: int, k: string)
    requires StrippedAt(s, t, a)
    requires |k| > 0 && forall c :: c in k ==> !IsWhitespace(c)
    requires Includes(ToLower(s), k)
    ensures Includes(ToLower(s)[a..a + |t|], k)
  {
    var i :| OccursAt(ToLower(s), k, i);
    OccurrenceInsideBlock(s, t, a, k, i);
    OccursInBlock(ToLower(s), a, |t|, k, i);
  }

  lemma BlockOccurrenceLifts(u: string, a: nat, n: nat, k: string)
    requires a + n <= |u| && Includes(u[a..a + n], k)
    ensures Includes(u, k)
  {
    var j :| OccursAt(u[a..a + n], k, j);
    assert OccursAt(u[a..a + n], k, j);
    assert 0 <= j;
    OccursInBlock(u, a, n, k, j + a);
  }

  /** Lower-casing works character by character, so it commutes with taking
      a block. */
  lemma LowerOfBlock(s: string, a: nat, n: nat)
    requires a + n <= |s|
    ensures ToLower(s[a..a + n]) == ToLower(s)[a..a + n]
  {
  }

  /** An occurrence lying within block `[a, a + n)` of `u` is an occurrence
      in the block, shifted by `a`, and back. */
  lemma OccursInBlock(u: string, a: nat, n: nat, k: string, i: int)
    requires a + n <= |u| && a <= i && i + |k| <= a + n
    ensures OccursAt(u, k, i) <==> OccursAt(u[a..a + n], k, i - a)
  {
    var x := u[a..a + n][i - a..i - a + |k|];
    var y := u[i..i + |k|];
    forall j | 0 <= j < |k|
      ensures x[j] == y[j]
    {
      assert x[j] == u[a..a + n][i - a + j];
    }
    assert x == y;
  }

  lemma OccurrenceInsideBlock(s: string, t: string, a: int, k: string, i: int)
    requires StrippedAt(s, t, a)
    requires |k| > 0 && forall c :: c in k ==> !IsWhitespace(c)
    requires OccursAt(ToLower(s), k, i)
    ensures a <= i && i + |k| <= a + |t|
  {
    var ls := ToLower(s);
    var last := i + |k| - 1;
    assert ls[i] == k[0] && ls[last] == k[|k| - 1];
    assert k[0] in k && k[|k| - 1] in k;
    NonWhitespaceKept(s, i);
    NonWhitespaceKept(s, last);
  }

  /** A character that is not whitespace after lower-casing was not
      whitespace before. */
  lemma NonWhitespaceKept(s: string, i: int)
    requires 0 <= i < |s| && !IsWhitespace(ToLower(s)[i])
    ensures !IsWhitespace(s[i])
  {
  }

  /** No key is empty or contains whitespace. */
  lemma KeysAreWords()
    ensures forall i :: 0 <= i < |PredefinedKeys| ==>
      |PredefinedKeys[i]| > 0 && forall c :: c in PredefinedKeys[i] ==> !IsWhitespace(c)
  {
  }

  /** The reply is computed from the untrimmed input while the stored message
      is the trimmed one; both give the same reply. */
  lemma ReplyIgnoresTrim(input: string)
    ensures GetResponse(Trim(input)) == GetResponse(input)
  {
    var t := Trim(input);
    var a :| StrippedAt(input, t, a);
    KeysAreWords();
    forall i | 0 <= i < |PredefinedKeys|
      ensures Includes(ToLower(t), PredefinedKeys[i]) <==> Includes(ToLower(input), PredefinedKeys[i])
    {
      IncludesIgnoresTrim(input, t, a, PredefinedKeys[i]);
    }
  }

  datatype Message = UserMessage(id: string, text: string) | AssistantMessage(id: string, reply: Reply)

  datatype ChatState = ChatState(messages: seq<Message>, input: string)

  /** `handleSend`: input that is empty after trimming is ignored; otherwise
      the trimmed input is stored as the user's message, the field is
      cleared, and the reply to the input is appended. The two ids are the
      clock readings taken before and after the delay. */
  function HandleSend(state: ChatState, sentAt: nat, repliedAt: nat): (r: ChatState)
    ensures Trim(state.input) == [] ==> r == state
    ensures Trim(state.input) != [] ==>
      && r.input == ""
      && |r.messages| == |state.messages| + 2
      && r.messages[..|state.messages|] == state.messages
      && r.messages[|state.messages|] == UserMessage(DecimalString(sentAt), Trim(state.input))
      && r.messages[|state.messages| + 1] == AssistantMessage(DecimalString(repliedAt + 1), GetResponse(state.input))
  {
    var content := Trim(state.input);
    if content == [] then state
    else
      ChatState(state.messages + [UserMessage(DecimalString(sentAt), content),
                                  AssistantMessage(DecimalString(repliedAt + 1), GetResponse(state.input))], "")
  }

  /** Whitespace-only input never produces a message. */
  lemma BlankInputIgnored(state: ChatState, sentAt: nat, repliedAt: nat)
    requires forall i :: 0 <= i < |state.input| ==> IsWhitespace(state.input[i])
    ensures HandleSend(state, sentAt, repliedAt) == state
  {
  }
}

=== FILE: dashboard.dfy ===
/** The derived views of src/pages/Dashboard.tsx: the current user's
    bookings, the pending and review counters, and the "recent" list. */
module DashboardPage {
  import opened Options
  import opened Seqs
  import opened PeminjamanStore
  import opened Auth

  /** `userPeminjaman`: nothing without a user, otherwise the bookings filed
      under the user's NIM, in store order. */
  function UserPeminjaman(user: Option<User>, store: seq<Peminjaman>): (r: seq<Peminjaman>)
    ensures user.None? ==> r == []
    ensures user.Some? ==> forall p :: p in r <==> p in store && p.nim == user.value.nim
  {
    if user.Some? then GetPeminjamanByNim(store, user.value.nim) else []
  }

  /** The status column of the store. */
  function Statuses(store: seq<Peminjaman>): (r: seq<StatusPeminjaman>)
    ensures |r| == |store|
    ensures forall i :: 0 <= i < |r| ==> r[i] == store[i].status
  {
    seq(|store|, i requires 0 <= i < |store| => store[i].status)
  }

  /** The number of bookings with status `status` is how often `status`
      occurs in the store's status column. */
  lemma {:induction false} WithStatusCount(store: seq<Peminjaman>, status: StatusPeminjaman)
    ensures |WithStatus(store, status)| == multiset(Statuses(store))[status]
  {
    if |store| > 0 {
      WithStatusCount(store[1..], status);
      assert Statuses(store) == [store[0].status] + Statuses(store[1..]);
    }
  }

  /** `pendingCount`. */
  function PendingCount(store: seq<Peminjaman>): (n: nat)
    ensures n == multiset(Statuses(store))[Pending]
  {
    WithStatusCount(store, Pending);
    |WithStatus(store, Pending)|
  }

  /** `reviewCount`. */
  function ReviewCount(store: seq<Peminjaman>): (n: nat)
    ensures n == multiset(Statuses(store))[Review]
  {
    WithStatusCount(store, Review);
    |WithStatus(store, Review)|
  }

  /** How many bookings the "recent" list shows at most. */
  const RecentLimit := 5

  /** `userPeminjaman.slice(-5).reverse()`: the last five (or fewer) of the
      user's bookings, newest first. */
  function Recent(bookings: seq<Peminjaman>): (r: seq<Peminjaman>)
    ensures |r| == if |bookings| < RecentLimit then |bookings| else RecentLimit
    ensures forall i :: 0 <= i < |r| ==> r[i] == bookings[|bookings| - 1 - i]
  {
    Reverse(SliceFrom(bookings, -RecentLimit))
  }

  /** A booking the logged-in user has just submitted heads the user's
      recent list. */
  lemma SubmittedBookingHeadsRecent(store: seq<Peminjaman>, user: Option<User>, d: Draft, clock: nat, createdAt: string)
    requires user.Some? && d.nim == user.value.nim
    ensures var s' := AddPeminjaman(store, d, clock, createdAt);
      var recent := Recent(UserPeminjaman(user, s'));
      |recent| > 0 && recent[0] == s'[|store|]
  {
    AddThenByNim(store, d, clock, createdAt, user.value.nim);
  }
}

=== FILE: options.dfy ===
/** An optional value: JavaScript's `null` or `undefined`, a missing
    record field, or the NaN that `parseInt` returns on text with no
    digits. */
module Options {
  datatype Option<T> = None | Some(value: T)
}

=== FILE: peminjaman.dfy ===
/** The booking store of src/context/PeminjamanContext.tsx: an ordered
    sequence of booking records that only ever grows by appending, whose
    records change only in their status. Persistence is left out: "saving"
    a store is returning its new value. */
module PeminjamanStore {
  import opened Options
  import opened Seqs
  import Text

  datatype StatusPeminjaman = Pending | Review | Accepted | Rejected

  datatype TipePeminjaman = Ruangan | Barang

  /** The free-text fields the room and item forms collect. */
  datatype FormFields = FormFields(
    keperluan: string,
    penanggungJawab: string,
    alasan: string,
    durasi: string,
    tanggalMulai: string,
    tanggalSelesai: string,
    fotoKTM: string)

  const EmptyFields := FormFields("", "", "", "", "", "", "")

  /** The booking carries the form's free-text fields unchanged, the photo
      included. */
  predicate CarriesFields(p: Peminjaman, f: FormFields) {
    && p.keperluan == f.keperluan && p.penanggungJawab == f.penanggungJawab
    && p.alasan == f.alasan && p.durasi == f.durasi
    && p.tanggalMulai == f.tanggalMulai && p.tanggalSelesai == f.tanggalSelesai
    && p.fotoKTM == Some(f.fotoKTM)
  }

  /** What a page submits: a booking without `id`, `status` and `createdAt`. */
  datatype Draft = Draft(
    nim: string,
    tipe: TipePeminjaman,
    itemId: string,
    itemNama: string,
    keperluan: string,
    penanggungJawab: string,
    alasan: string,
    durasi: string,
    tanggalMulai: string,
    tanggalSelesai: string,
    fotoKTM: Option<string>,
    jumlah: Option<int>)

  datatype Peminjaman = Peminjaman(
    id: string,
    nim: string,
    tipe: TipePeminjaman,
    itemId: string,
    itemNama: string,
    keperluan: string,
    penanggungJawab: string,
    alasan: string,
    durasi: string,
    tanggalMulai: string,
    tanggalSelesai: string,
    fotoKTM: Option<string>,
    status: StatusPeminjaman,
    createdAt: string,
    jumlah: Option<int>)

  /** The fields of a booking that came from its draft. */
  function DraftOf(p: Peminjaman): Draft {
    Draft(p.nim, p.tipe, p.itemId, p.itemNama, p.keperluan, p.penanggungJawab,
          p.alasan, p.durasi, p.tanggalMulai, p.tanggalSelesai, p.fotoKTM, p.jumlah)
  }

  /** The identifier `PJ${Date.now()}` for a clock reading in milliseconds. */
  function BookingId(clock: nat): (id: string)
    ensures |id| > 2 && id[..2] == "PJ"
    ensures forall i :: 2 <= i < |id| ==> '0' <= id[i] <= '9'
    ensures id[2] == '0' ==> id == "PJ0"
    ensures Text.ParseInt(id[2..]) == Some(clock)
  {
    var digits := Text.DecimalString(clock);
    Text.ParseIntOfDecimal(clock);
    assert ("PJ" + digits)[2..] == digits;
    "PJ" + digits
  }

  /** `addPeminjaman`: append the draft as a new `pending` booking. The
      clock reading and the creation timestamp are supplied by the caller. */
  function AddPeminjaman(store: seq<Peminjaman>, d: Draft, clock: nat, createdAt: string): (r: seq<Peminjaman>)
    ensures |r| == |store| + 1
    ensures r[..|store|] == store
    ensures r[|store|].status == Pending
    ensures DraftOf(r[|store|]) == d
    ensures r[|store|].id == BookingId(clock) && r[|store|].createdAt == createdAt
  {
    var p := Peminjaman(BookingId(clock), d.nim, d.tipe, d.itemId, d.itemNama, d.keperluan,
                        d.penanggungJawab, d.alasan, d.durasi, d.tanggalMulai, d.tanggalSelesai,
                        d.fotoKTM, Pending, createdAt, d.jumlah);
    store + [p]
  }

  /** `updateStatus`: every record whose id equals `id` takes `status`,
      whatever status it had; every other field of every record, and every
      other record, is left as it was. An unknown id changes nothing. */
  function UpdateStatus(store: seq<Peminjaman>, id: string, status: StatusPeminjaman): (r: seq<Peminjaman>)
    ensures |r| == |store|
    ensures forall i :: 0 <= i < |r| ==> r[i].status == if store[i].id == id then status else store[i].status
    ensures forall i :: 0 <= i < |r| ==> r[i].(status := store[i].status) == store[i]
  {
    if |store| == 0 then []
    else
      var p := store[0];
      [if p.id == id then p.(status := status) else p] + UpdateStatus(store[1..], id, status)
  }

  /** Applying the same update twice is the same as applying it once. */
  lemma UpdateStatusIdempotent(store: seq<Peminjaman>, id: string, status: StatusPeminjaman)
    ensures UpdateStatus(UpdateStatus(store, id, status), id, status) == UpdateStatus(store, id, status)
  {
  }

  /** An id that no record carries leaves the store unchanged, and no error
      is signalled. */
  lemma UpdateStatusUnknownId(store: seq<Peminjaman>, id: string, status: StatusPeminjaman)
    requires forall i :: 0 <= i < |store| ==> store[i].id != id
    ensures UpdateStatus(store, id, status) == store
  {
  }

  /** No transition is refused: an accepted booking can be sent back to
      pending. */
  lemma UpdateStatusReopensAccepted(p: Peminjaman)
    requires p.status == Accepted
    ensures UpdateStatus([p], p.id, Pending) == [p.(status := Pending)]
  {
  }

  predicate HasNim(p: Peminjaman, nim: string) {
    p.nim == nim
  }

  /** A booking still awaiting a decision. */
  predicate IsOpen(p: Peminjaman) {
    p.status == Pending || p.status == Review
  }

  /** `getPeminjamanByNim`: the requester's bookings, in store order. */
  function GetPeminjamanByNim(store: seq<Peminjaman>, nim: string): (r: seq<Peminjaman>)
    ensures forall p :: p in r <==> p in store && p.nim == nim
  {
    Filter(store, p => HasNim(p, nim))
  }

  /** `getPendingPeminjaman`: the bookings in `pending` or `review`, in store
      order. */
  function GetPendingPeminjaman(store: seq<Peminjaman>): (r: seq<Peminjaman>)
    ensures forall p :: p in r <==> p in store && (p.status == Pending || p.status == Review)
  {
    Filter(store, IsOpen)
  }

  /** The bookings that currently have status `status`, in store order. */
  function WithStatus(store: seq<Peminjaman>, status: StatusPeminjaman): (r: seq<Peminjaman>)
    ensures forall p :: p in r <==> p in store && p.status == status
  {
    Filter(store, (p: Peminjaman) => p.status == status)
  }

  /** Appending a booking extends the requester's list by exactly that
      booking, at its end, and leaves every other requester's list as it
      was. */
  lemma AddThenByNim(store: seq<Peminjaman>, d: Draft, clock: nat, createdAt: string, nim: string)
    ensures var r := AddPeminjaman(store, d, clock, createdAt);
      GetPeminjamanByNim(r, nim)
        == GetPeminjamanByNim(store, nim) + (if d.nim == nim then [r[|store|]] else [])
  {
    var r := AddPeminjaman(store, d, clock, createdAt);
    assert r == store + [r[|store|]];
    FilterConcat(store, [r[|store|]], p => HasNim(p, nim));
  }
}

=== FILE: ruangan.dfy ===
/** The room catalog page, src/pages/Ruangan.tsx: size filter, the guard for
    opening the booking form, the submission and the size colour table. The
    catalog (`ruangan.json`) is an input; `tersedia` is its static per-room
    flag. Image encoding, toasts and navigation are left out. */
module RuanganPage {
  import opened Options
  import opened Seqs
  import opened PeminjamanStore
  import opened Auth
  import StatusBadge

  datatype Ruangan = Ruangan(id: string, nama: string, kapasitas: int, ukuran: string, tersedia: bool, fasilitas: seq<string>)

  /** The page's state: selected room, whether the form dialog is open, the
      size filter and the form. */
  datatype Page = Page(selected: Option<Ruangan>, dialogOpen: bool, filterUkuran: string, form: FormFields)

  /** The filter value that shows every size. */
  const All := "all"

  /** The page as first rendered: nothing selected, the dialog closed, every
      size shown and every form field empty. */
  const InitialPage := Page(None, false, All, EmptyFields)

  predicate HasUkuran(r: Ruangan, ukuran: string) {
    r.ukuran == ukuran
  }

  /** `filteredRuangan`: the whole list for `all`, otherwise the rooms of that
      size in catalog order. */
  function FilteredRuangan(rooms: seq<Ruangan>, filter: string): (r: seq<Ruangan>)
    ensures filter == All ==> r == rooms
    ensures filter != All ==> forall x :: x in r <==> x in rooms && x.ukuran == filter
  {
    if filter == All then rooms else Filter(rooms, x => HasUkuran(x, filter))
  }

  /** Filtering a list already restricted to one size by that size again
      changes nothing. */
  lemma FilterBySizeIdempotent(rooms: seq<Ruangan>, filter: string)
    ensures FilteredRuangan(FilteredRuangan(rooms, filter), filter) == FilteredRuangan(rooms, filter)
  {
    if filter != All {
      var once := FilteredRuangan(rooms, filter);
      FilterAll(once, x => HasUkuran(x, filter));
    }
  }

  /** The badge on a room's card. */
  function CardBadge(x: Ruangan): StatusBadge.Status {
    if x.tersedia then StatusBadge.Available else StatusBadge.Unavailable
  }

  /** `handleRuanganClick`: an available room is selected and the dialog
      opened; otherwise nothing happens. The form keeps its contents. */
  function HandleRuanganClick(page: Page, x: Ruangan): (r: Page)
    ensures x.tersedia ==> r.selected == Some(x) && r.dialogOpen && r.form == page.form && r.filterUkuran == page.filterUkuran
    ensures !x.tersedia ==> r == page
  {
    if x.tersedia then page.(selected := Some(x), dialogOpen := true) else page
  }

  /** On the page as first rendered, a click opens the form exactly for an
      available room, and the form it opens is empty. */
  lemma ClickFromInitialPage(x: Ruangan)
    ensures HandleRuanganClick(InitialPage, x).dialogOpen <==> x.tersedia
    ensures x.tersedia ==>
      var r := HandleRuanganClick(InitialPage, x);
      r.selected == Some(x) && r.form == EmptyFields && r.filterUkuran == All
  {
  }

  /** The card's badge says "available" exactly for the rooms a click opens. */
  lemma BadgeAgreesWithClick(page: Page, x: Ruangan)
    requires !page.dialogOpen
    ensures CardBadge(x) == StatusBadge.Available <==> HandleRuanganClick(page, x).dialogOpen
  {
  }

  datatype Submission = Submission(page: Page, store: seq<Peminjaman>)

  /** `handleSubmit`: nothing without a selected room or a user; otherwise the
      room booking is appended with the form's fields copied unchanged and no
      quantity, the dialog closes and every field is emptied. */
  function HandleSubmit(page: Page, user: Option<User>, store: seq<Peminjaman>, clock: nat, createdAt: string): (r: Submission)
    ensures page.selected.None? || user.None? ==> r == Submission(page, store)
    ensures page.selected.Some? && user.Some? ==>
      && |r.store| == |store| + 1 && r.store[..|store|] == store
      && r.store[|store|].status == Pending
      && r.store[|store|].tipe == TipePeminjaman.Ruangan
      && r.store[|store|].itemId == page.selected.value.id
      && r.store[|store|].itemNama == page.selected.value.nama
      && r.store[|store|].nim == user.value.nim
      && r.store[|store|].jumlah == None
      && CarriesFields(r.store[|store|], page.form)
      && r.store[|store|].id == BookingId(clock) && r.store[|store|].createdAt == createdAt
    ensures page.selected.Some? && user.Some? ==>
      r.page == page.(dialogOpen := false, form := EmptyFields)
  {
    if page.selected.None? || user.None? then Submission(page, store)
    else
      var x := page.selected.value;
      var f := page.form;
      var d := Draft(user.value.nim, TipePeminjaman.Ruangan, x.id, x.nama, f.keperluan, f.penanggungJawab,
                     f.alasan, f.durasi, f.tanggalMulai, f.tanggalSelesai, Some(f.fotoKTM), None);
      var s' := AddPeminjaman(store, d, clock, createdAt);
      assert DraftOf(s'[|store|]) == d;
      Submission(page.(dialogOpen := false, form := EmptyFields), s')
  }

  /** `getUkuranColor`. */
  function UkuranColor(ukuran: string): (c: string)
    ensures ukuran == "Kecil" ==> c == "bg-info/10 text-info"
    ensures ukuran == "Menengah" ==> c == "bg-warning/10 text-warning"
    ensures ukuran == "Besar" ==> c == "bg-success/10 text-success"
    ensures ukuran !in ["Kecil", "Menengah", "Besar"] ==> c == DefaultColor
  {
    match ukuran
    case "Kecil" => "bg-info/10 text-info"
    case "Menengah" => "bg-warning/10 text-warning"
    case "Besar" => "bg-success/10 text-success"
    case _ => DefaultColor
  }

  const DefaultColor := "bg-muted text-muted-foreground"

  /** The three named sizes get three different classes, none of them the
      default; so a size's class tells whether it is one of the three. */
  lemma UkuranColorsDistinct(a: string, b: string)
    requires a in ["Kecil", "Menengah", "Besar"]
    ensures UkuranColor(a) != DefaultColor
    ensures b in ["Kecil", "Menengah", "Besar"] && UkuranColor(a) == UkuranColor(b) ==> a == b
  {
  }
}

=== FILE: seqs.dfy ===
/** The array operations of JavaScript that the booking pages use
    (`filter`, `find`, `slice`, `reverse`, de-duplication through a `Set`),
    stated once over Dafny sequences. */
module Seqs {
  import opened Options

  /** `s.filter(f)`: the elements of `s` that satisfy `f`, in their order. */
  function Filter<T(!new)>(s: seq<T>, f: T -> bool): (r: seq<T>)
    ensures |r| <= |s|
    ensures forall i :: 0 <= i < |r| ==> f(r[i])
    ensures forall x :: x in r <==> x in s && f(x)
  {
    if |s| == 0 then []
    else
      assert forall x :: x in s <==> x == s[0] || x in s[1..];
      if f(s[0]) then [s[0]] + Filter(s[1..], f) else Filter(s[1..], f)
  }

  /** Filtering keeps every element that passes as often as it occurs, and
      drops every other occurrence. */
  lemma {:induction false} FilterMultiset<T(!new)>(s: seq<T>, f: T -> bool)
    ensures forall x :: multiset(Filter(s, f))[x] == if f(x) then multiset(s)[x] else 0
  {
    if |s| > 0 {
      FilterMultiset(s[1..], f);
      assert s == [s[0]] + s[1..];
      assert multiset(s) == multiset{s[0]} + multiset(s[1..]);
    }
  }

  /** Filtering commutes with concatenation, so the relative order of the
      kept elements is the order they had in `s`. */
  lemma {:induction false} FilterConcat<T(!new)>(a: seq<T>, b: seq<T>, f: T -> bool)
    ensures Filter(a + b, f) == Filter(a, f) + Filter(b, f)
  {
    if |a| == 0 {
      assert a + b == b;
    } else {
      assert (a + b)[0] == a[0];
      assert (a + b)[1..] == a[1..] + b;
      FilterConcat(a[1..], b, f);
    }
  }

  /** A filter that every element passes returns the whole sequence. */
  lemma {:induction false} FilterAll<T(!new)>(s: seq<T>, f: T -> bool)
    requires forall i :: 0 <= i < |s| ==> f(s[i])
    ensures Filter(s, f) == s
  {
    if |s| > 0 {
      FilterAll(s[1..], f);
    }
  }

  /** `s.find(f)` as an index: the first position whose element satisfies
      `f`, or None when no element does. */
  function FindIndex<T>(s: seq<T>, f: T -> bool): (r: Option<nat>)
    ensures r.None? <==> forall i :: 0 <= i < |s| ==> !f(s[i])
    ensures r.Some? ==> r.value < |s| && f(s[r.value])
    ensures r.Some? ==> forall j :: 0 <= j < r.value ==> !f(s[j])
  {
    if |s| == 0 then None
    else if f(s[0]) then Some(0)
    else
      match FindIndex(s[1..], f)
      case None => None
      case Some(k) => Some(k + 1)
  }

  /** `s.reverse()` on a copy. */
  function Reverse<T>(s: seq<T>): (r: seq<T>)
    ensures |r| == |s|
    ensures forall i :: 0 <= i < |s| ==> r[i] == s[|s| - 1 - i]
  {
    if |s| == 0 then [] else [s[|s| - 1]] + Reverse(s[..|s| - 1])
  }

  /** `s.slice(start)`: a negative start counts from the end and is clamped
      to 0, a start past the end gives the empty sequence. */
  function SliceFrom<T>(s: seq<T>, start: int): (r: seq<T>)
    ensures |r| == if start < 0 then (if -start < |s| then -start else |s|)
                   else (if start < |s| then |s| - start else 0)
    ensures r == s[|s| - |r|..]
  {
    if start < 0 then
      (if |s| + start < 0 then s else s[|s| + start..])
    else
      (if start < |s| then s[start..] else [])
  }

  /** No element occurs twice. */
  predicate NoDuplicates<T(==)>(s: seq<T>) {
    forall i, j :: 0 <= i < j < |s| ==> s[i] != s[j]
  }

  /** Position of the first occurrence of `x` in `s`. */
  function FirstIndex<T(==)>(s: seq<T>, x: T): (k: nat)
    requires x in s
    ensures k < |s| && s[k] == x && x !in s[..k]
  {
    if s[0] == x then 0 else 1 + FirstIndex(s[1..], x)
  }

  /** `[...new Set(s)]`: each element of `s` once, in the order of its first
      appearance. */
  function Distinct<T(==,!new)>(s: seq<T>): (r: seq<T>)
    ensures forall x :: x in r <==> x in s
    ensures NoDuplicates(r)
  {
    if |s| == 0 then []
    else
      var d := Distinct(s[..|s| - 1]);
      var x := s[|s| - 1];
      assert forall y :: y in s <==> y in s[..|s| - 1] || y == x by {
        assert s == s[..|s| - 1] + [x];
      }
      if x in d then d else d + [x]
  }

  /** The de-duplicated sequence lists elements by first appearance in `s`. */
  lemma {:induction false} DistinctOrder<T(!new)>(s: seq<T>)
    ensures forall i, j :: 0 <= i < j < |Distinct(s)| ==>
      FirstIndex(s, Distinct(s)[i]) < FirstIndex(s, Distinct(s)[j])
  {
    if |s| > 0 {
      var p := s[..|s| - 1];
      var x := s[|s| - 1];
      DistinctOrder(p);
      var d := Distinct(p);
      var r := Distinct(s);
      forall y | y in p
        ensures FirstIndex(s, y) == FirstIndex(p, y)
      {
        FirstIndexPrefix(p, [x], y);
        assert s == p + [x];
      }
      if x !in d {
        assert x !in p;
        assert s == p + [x];
        FirstIndexLast(p, x);
        forall i, j | 0 <= i < j < |r|
          ensures FirstIndex(s, r[i]) < FirstIndex(s, r[j])
        {
          if j == |r| - 1 {
            assert r[i] in p;
          }
        }
      }
    }
  }

  lemma {:induction false} FirstIndexPrefix<T>(p: seq<T>, q: seq<T>, y: T)
    requires y in p
    ensures FirstIndex(p + q, y) == FirstIndex(p, y)
  {
    if p[0] != y {
      assert (p + q)[1..] == p[1..] + q;
      FirstIndexPrefix(p[1..], q, y);
    }
  }

  lemma FirstIndexLast<T>(p: seq<T>, x: T)
    requires x !in p
    ensures FirstIndex(p + [x], x) == |p|
  {
  }
}

=== FILE: statusbadge.dfy ===
/** The status badge of src/components/StatusBadge.tsx: a table from eight
    statuses to a label and an emoji, and what the badge shows. Style
    classes are left out. */
module StatusBadge {
  import P = PeminjamanStore

  datatype Status = Pending | Review | Accepted | Rejected | Available | Unavailable | Cancelled | Completed

  datatype Config = Config(labelText: string, emoji: string)

  /** `statusConfig`, total over `Status`. */
  function StatusConfig(s: Status): (c: Config)
    ensures c.labelText != ""
  {
    match s
    case Pending => Config("Pending", "🟡")
    case Review => Config("Review", "🔵")
    case Accepted => Config("Accepted", "🟢")
    case Rejected => Config("Rejected", "🔴")
    case Cancelled => Config("Dibatalkan", "⚫")
    case Completed => Config("Selesai", "✅")
    case Available => Config("Tersedia", "")
    case Unavailable => Config("Tidak Tersedia", "")
  }

  /** A booking status as the badge status of the same name. */
  function FromBooking(s: P.StatusPeminjaman): (b: Status)
    ensures b != Available && b != Unavailable && b != Cancelled && b != Completed
    ensures s == P.Pending <==> b == Pending
    ensures s == P.Review <==> b == Review
    ensures s == P.Accepted <==> b == Accepted
    ensures s == P.Rejected <==> b == Rejected
  {
    match s
    case Pending => Pending
    case Review => Review
    case Accepted => Accepted
    case Rejected => Rejected
  }

  /** The pieces of text inside the badge, in order. */
  datatype Piece = EmojiSpan(text: string) | LabelText(text: string)

  /** The badge's content: the emoji in its own span when the configured
      emoji is non-empty, then the label. */
  function Render(s: Status): (r: seq<Piece>)
    ensures |r| > 0 && r[|r| - 1] == LabelText(StatusConfig(s).labelText)
    ensures (exists i :: 0 <= i < |r| && r[i].EmojiSpan?) <==> StatusConfig(s).emoji != ""
    ensures forall i :: 0 <= i < |r| && r[i].EmojiSpan? ==> r[i].text == StatusConfig(s).emoji
    ensures StatusConfig(s).emoji != "" ==> r[0].EmojiSpan?
    ensures forall i :: 0 <= i < |r| - 1 ==> r[i].EmojiSpan?
    ensures |r| == if StatusConfig(s).emoji != "" then 2 else 1
  {
    var c := StatusConfig(s);
    if c.emoji != "" then
      var r := [EmojiSpan(c.emoji), LabelText(c.labelText)];
      assert r[0].EmojiSpan?;
      r
    else [LabelText(c.labelText)]
  }

  /** Only the availability badges come without an emoji. */
  lemma EmojiExactlyForLifecycle(s: Status)
    ensures StatusConfig(s).emoji == "" <==> s == Available || s == Unavailable
  {
  }

  /** No two statuses share a label, so a label identifies its status. */
  lemma LabelsIdentifyStatus(s: Status, t: Status)
    ensures StatusConfig(s).labelText == StatusConfig(t).labelText ==> s == t
  {
  }

  /** Distinct booking statuses get distinct badges, and every one of them
      shows an emoji followed by its label. */
  lemma EveryBookingRenders(s: P.StatusPeminjaman, t: P.StatusPeminjaman)
    ensures FromBooking(s) == FromBooking(t) ==> s == t
    ensures Render(FromBooking(s))[0].EmojiSpan? && |Render(FromBooking(s))| == 2
  {
  }
}

=== FILE: text.dfy ===
/** The string primitives of JavaScript that the pages rely on:
    `toLowerCase` (ASCII letters only), `includes`, `trim`, number-to-string
    for `Date.now()` values, and `parseInt` with no radix argument. */
module Text {
  import opened Options

  predicate IsAsciiUpper(c: char) {
    'A' <= c <= 'Z'
  }

  function LowerChar(c: char): char {
    if IsAsciiUpper(c) then (c as int + 32) as char else c
  }

  /** `s.toLowerCase()` restricted to ASCII: upper-case letters become
      lower-case, every other character is kept. */
  function ToLower(s: string): (r: string)
    ensures |r| == |s|
    ensures forall i :: 0 <= i < |r| ==> !IsAsciiUpper(r[i])
    ensures forall i :: 0 <= i < |s| && !IsAsciiUpper(s[i]) ==> r[i] == s[i]
    ensures forall i :: 0 <= i < |s| && IsAsciiUpper(s[i]) ==> r[i] as int == s[i] as int + 32
  {
    seq(|s|, i requires 0 <= i < |s| => LowerChar(s[i]))
  }

  /** Lower-casing a lower-cased string changes nothing. */
  lemma ToLowerIdempotent(s: string)
    ensures ToLower(ToLower(s)) == ToLower(s)
  {
  }

  /** `k` occurs in `s` starting at position `i`. */
  predicate OccursAt(s: string, k: string, i: int) {
    0 <= i && i + |k| <= |s| && s[i..i + |k|] == k
  }

  /** `s.includes(k)`: `k` occurs in `s` as a contiguous block. */
  predicate Includes(s: string, k: string) {
    exists i :: 0 <= i <= |s| - |k| && OccursAt(s, k, i)
  }

  /** The characters `String.prototype.trim` and `parseInt` skip: the
      ECMAScript WhiteSpace (including every space separator) and
      LineTerminator characters. */
  predicate IsWhitespace(c: char) {
    || c == '\t' || c == '\n' || c == '\U{B}' || c == '\U{C}' || c == '\r' || c == ' '
    || c == '\U{A0}' || c == '\U{1680}' || ('\U{2000}' <= c <= '\U{200A}')
    || c == '\U{2028}' || c == '\U{2029}' || c == '\U{202F}' || c == '\U{205F}'
    || c == '\U{3000}' || c == '\U{FEFF}'
  }

  /** Number of whitespace characters at the start of `s`. */
  function LeadingWhitespace(s: string): (n: nat)
    ensures n <= |s|
    ensures forall i :: 0 <= i < n ==> IsWhitespace(s[i])
    ensures n < |s| ==> !IsWhitespace(s[n])
  {
    if |s| == 0 || !IsWhitespace(s[0]) then 0 else 1 + LeadingWhitespace(s[1..])
  }

  /** Position where the whitespace at the end of `s` begins. */
  function TrailingWhitespaceStart(s: string): (m: nat)
    ensures m <= |s|
    ensures forall i :: m <= i < |s| ==> IsWhitespace(s[i])
    ensures m > 0 ==> !IsWhitespace(s[m - 1])
  {
    if |s| == 0 || !IsWhitespace(s[|s| - 1]) then |s| else TrailingWhitespaceStart(s[..|s| - 1])
  }

  /** `r` is `s` with the whitespace at both of its ends removed. */
  ghost predicate IsTrimmed(s: string, r: string) {
    exists a :: StrippedAt(s, r, a)
  }

  /** `r` is the block of `s` at position `a`, everything before and after
      it is whitespace, and `r` neither starts nor ends with whitespace. */
  predicate StrippedAt(s: string, r: string, a: int) {
    && 0 <= a && a + |r| <= |s| && r == s[a..a + |r|]
    && (forall i :: 0 <= i < a ==> IsWhitespace(s[i]))
    && (forall i :: a + |r| <= i < |s| ==> IsWhitespace(s[i]))
    && (|r| == 0 || (!IsWhitespace(r[0]) && !IsWhitespace(r[|r| - 1])))
  }

  /** `s.trim()`: the block of `s` left after removing whitespace at both
      ends. It is empty exactly when `s` is all whitespace. */
  function Trim(s: string): (r: string)
    ensures IsTrimmed(s, r)
    ensures r == [] <==> forall i :: 0 <= i < |s| ==> IsWhitespace(s[i])
  {
    var a := LeadingWhitespace(s);
    var t := s[a..];
    var m := TrailingWhitespaceStart(t);
    var r := t[..m];
    assert r == s[a..a + m];
    assert forall i :: a + m <= i < |s| ==> s[i] == t[i - a];
    assert StrippedAt(s, r, a);
    r
  }

  /** Trimming a trimmed string changes nothing. */
  lemma TrimIdempotent(s: string)
    ensures Trim(Trim(s)) == Trim(s)
  {
  }

  /** Value of `c` as a digit in bases up to 36 (`0`-`9`, then letters of
      either case); 36 for a character that is no digit at all. */
  function CharDigit(c: char): (d: nat)
    ensures d <= 36
  {
    if '0' <= c <= '9' then c as int - '0' as int
    else if 'a' <= c <= 'z' then c as int - 'a' as int + 10
    else if 'A' <= c <= 'Z' then c as int - 'A' as int + 10
    else 36
  }

  predicate IsDigitIn(c: char, radix: nat) {
    CharDigit(c) < radix
  }

  /** Length of the longest prefix of `s` made of digits of `radix`. */
  function DigitPrefixLength(s: string, radix: nat): (n: nat)
    ensures n <= |s|
    ensures forall i :: 0 <= i < n ==> IsDigitIn(s[i], radix)
    ensures n < |s| ==> !IsDigitIn(s[n], radix)
  {
    if |s| == 0 || !IsDigitIn(s[0], radix) then 0 else 1 + DigitPrefixLength(s[1..], radix)
  }

  /** The value of a run of digits in `radix`, most significant first. */
  function DigitsValue(ds: string, radix: nat): nat {
    if |ds| == 0 then 0
    else DigitsValue(ds[..|ds| - 1], radix) * radix + CharDigit(ds[|ds| - 1])
  }

  function DigitChar(d: nat): (c: char)
    requires d < 10
    ensures CharDigit(c) == d
  {
    ('0' as int + d) as char
  }

  /** `String(n)` for a non-negative integer: its decimal digits with no
      leading zero. */
  function DecimalString(n: nat): (r: string)
    ensures |r| >= 1
    ensures forall i :: 0 <= i < |r| ==> '0' <= r[i] <= '9'
    ensures r[0] == '0' ==> n == 0
    decreases n
  {
    if n < 10 then [DigitChar(n)] else DecimalString(n / 10) + [DigitChar(n % 10)]
  }

  /** Reading back the decimal rendering of `n` gives `n`. */
  lemma {:induction false} DecimalRoundTrip(n: nat)
    ensures forall i :: 0 <= i < |DecimalString(n)| ==> IsDigitIn(DecimalString(n)[i], 10)
    ensures DigitsValue(DecimalString(n), 10) == n
    decreases n
  {
    var r := DecimalString(n);
    if n >= 10 {
      DecimalRoundTrip(n / 10);
      assert r[..|r| - 1] == DecimalString(n / 10);
    }
  }

  /** `parseInt(s)` without a radix: skip leading whitespace, read an
      optional sign and an optional `0x`/`0X` prefix (which switches to base
      16), then the longest run of digits. None stands for NaN, the result
      when that run is empty. */
  function ParseInt(s: string): (r: Option<int>)
    ensures (forall i :: 0 <= i < |s| ==> IsWhitespace(s[i])) ==> r.None?
  {
    var a := LeadingWhitespace(s);
    assert a < |s| ==> !IsWhitespace(s[a]);
    ParseSigned(s[a..])
  }

  /** `parseInt` after the leading whitespace: the sign, then the magnitude. */
  function ParseSigned(t: string): Option<int> {
    if |t| > 0 && t[0] == '-' then
      match ParseMagnitude(t[1..])
      case None => None
      case Some(m) => Some(-(m as int))
    else if |t| > 0 && t[0] == '+' then Widen(ParseMagnitude(t[1..]))
    else Widen(ParseMagnitude(t))
  }

  function Widen(m: Option<nat>): Option<int> {
    match m
    case None => None
    case Some(v) => Some(v)
  }

  /** The unsigned part of `parseInt`: an optional hexadecimal prefix, then
      the longest run of digits of the chosen base. */
  function ParseMagnitude(u: string): Option<nat> {
    if |u| >= 2 && u[0] == '0' && (u[1] == 'x' || u[1] == 'X') then DigitRun(u[2..], 16)
    else DigitRun(u, 10)
  }

  /** The value of the longest run of `radix` digits at the start of `v`, or
      None when there is none. */
  function DigitRun(v: string, radix: nat): Option<nat> {
    var n := DigitPrefixLength(v, radix);
    if n == 0 then None else Some(DigitsValue(v[..n], radix))
  }

  /** `String(n)` reads back as `n`. */
  lemma ParseIntOfDecimal(n: nat)
    ensures ParseInt(DecimalString(n)) == Some(n)
  {
    var d := DecimalString(n);
    ParseMagnitudeDecimal(n, "");
    assert d + "" == d;
    assert LeadingWhitespace(d) == 0;
    assert d[0..] == d;
    ParseSignedDigit(d);
  }

  /** `"-" + String(n)` reads back as `-n`. */
  lemma ParseIntOfNegativeDecimal(n: nat)
    ensures ParseInt("-" + DecimalString(n)) == Some(-(n as int))
  {
    var d := DecimalString(n);
    var t := "-" + d;
    ParseMagnitudeDecimal(n, "");
    assert d + "" == d;
    assert LeadingWhitespace(t) == 0;
    assert t[0..] == t;
    ParseSignedMinus(d);
  }

  /** A leading `-` negates the magnitude read after it. */
  lemma ParseSignedMinus(u: string)
    requires ParseMagnitude(u).Some?
    ensures ParseSigned("-" + u) == Some(-(ParseMagnitude(u).value as int))
  {
  }

  /** A `+` reads the magnitude after it unchanged, and a sign followed by
      no number (`"-"`, `"+"`, `"-x"`) is NaN. */
  lemma ParseSignedSigns(u: string)
    ensures ParseMagnitude(u).Some? ==> ParseSigned("+" + u) == Some(ParseMagnitude(u).value as int)
    ensures ParseMagnitude(u).None? ==> ParseSigned("-" + u).None? && ParseSigned("+" + u).None?
  {
  }

  /** With neither a sign nor a decimal digit where the number should start,
      `parseInt` is NaN: `""`, `".5"`, `"abc"` and `"  x1"` all read as None. */
  lemma ParseIntNoNumber(ws: string, t: string)
    requires forall i :: 0 <= i < |ws| ==> IsWhitespace(ws[i])
    requires |t| > 0 ==> !IsWhitespace(t[0]) && t[0] != '-' && t[0] != '+' && !('0' <= t[0] <= '9')
    ensures ParseInt(ws + t).None?
  {
    ParseIntSkipsWhitespace(ws, t);
  }

  /** A `0x` or `0X` prefix switches to base 16 for the digit run after it. */
  lemma ParseMagnitudeHex(x: char, v: string)
    requires x == 'x' || x == 'X'
    ensures ParseMagnitude(['0', x] + v) == DigitRun(v, 16)
  {
  }

  /** Hexadecimal and its error cases: `"0x1A"` is 26, `"0X"` alone and
      `"0xg"` are NaN, while `"0"` is 0. */
  lemma ParseIntHexExamples()
    ensures ParseInt("0x1A") == Some(26)
    ensures ParseInt("0X").None? && ParseInt("0xg").None?
    ensures ParseInt("0") == Some(0)
  {
    assert LeadingWhitespace("0x1A") == 0;
    assert "0x1A"[0..] == "0x1A";
    ParseMagnitudeHex('x', "1A");
    assert DigitPrefixLength("1A", 16) == 2;
    assert "1A"[..2] == "1A" && "1A"[..1] == "1" && "1"[..0] == "";
    assert DigitsValue("1", 16) == 1;
    assert DigitsValue("1A", 16) == 26;
    assert LeadingWhitespace("0X") == 0;
    assert "0X"[0..] == "0X";
    ParseMagnitudeHex('X', "");
    assert LeadingWhitespace("0xg") == 0;
    assert "0xg"[0..] == "0xg";
    ParseMagnitudeHex('x', "g");
    ParseIntOfDecimal(0);
  }

  /** Text that starts with a digit is read as a non-negative magnitude. */
  lemma ParseSignedDigit(u: string)
    requires |u| > 0 && '0' <= u[0] <= '9'
    requires ParseMagnitude(u).Some?
    ensures ParseSigned(u) == Some(ParseMagnitude(u).value as int)
  {
  }

  /** `parseInt` reads what follows the leading whitespace. */
  lemma ParseIntSkipsWhitespace(ws: string, t: string)
    requires forall i :: 0 <= i < |ws| ==> IsWhitespace(ws[i])
    requires |t| > 0 ==> !IsWhitespace(t[0])
    ensures ParseInt(ws + t) == ParseSigned(t)
  {
    LeadingWhitespacePrefix(ws, t);
    assert (ws + t)[|ws|..] == t;
  }

  lemma ParseMagnitudeDecimal(n: nat, rest: string)
    requires |rest| > 0 ==> !('0' <= rest[0] <= '9')
    requires |rest| > 0 && n == 0 ==> rest[0] != 'x' && rest[0] != 'X'
    ensures ParseMagnitude(DecimalString(n) + rest) == Some(n)
  {
    var d := DecimalString(n);
    var u := d + rest;
    DecimalRoundTrip(n);
    if |d| >= 2 {
      assert u[1] == d[1];
    } else if |rest| > 0 {
      assert u[1] == rest[0];
    }
    DigitPrefixOf(d, rest, 10);
    assert u[..|d|] == d;
  }

  lemma {:induction false} LeadingWhitespacePrefix(ws: string, s: string)
    requires forall i :: 0 <= i < |ws| ==> IsWhitespace(ws[i])
    requires |s| > 0 ==> !IsWhitespace(s[0])
    ensures LeadingWhitespace(ws + s) == |ws|
  {
    if |ws| > 0 {
      assert (ws + s)[1..] == ws[1..] + s;
      LeadingWhitespacePrefix(ws[1..], s);
    } else {
      assert ws + s == s;
    }
  }

  lemma {:induction false} DigitPrefixOf(d: string, rest: string, radix: nat)
    requires forall i :: 0 <= i < |d| ==> IsDigitIn(d[i], radix)
    requires |rest| > 0 ==> !IsDigitIn(rest[0], radix)
    ensures DigitPrefixLength(d + rest, radix) == |d|
  {
    if |d| > 0 {
      assert (d + rest)[1..] == d[1..] + rest;
      DigitPrefixOf(d[1..], rest, radix);
    } else {
      assert d + rest == rest;
    }
  }
}
